=== FILE: README.md ===
# Validator — a Dafny model

This project models the `Validator` class of a small JavaScript library that
checks a flat object against a flat schema. The schema maps property names to
constraint descriptors. A descriptor has an optional `type`, which is compared
with `typeof`, and an optional `length: {greaterThan: n}` rule.

- `new Validator(schema)` rejects a missing schema (`'Input required'`) and an
  empty one (`'Invalid input'`). Otherwise it stores the schema.
- `valid(obj)` rejects a missing candidate (`'Object required'`) and an empty
  one (`'Invalid Object'`). Otherwise it folds left over `Object.keys(obj)`
  starting from `true`. Each step is
  `acc && schema.hasOwnProperty(key) && validateItem(obj[key], schema[key])`.
- `validateItem` returns `typeof value === config.type`. When the descriptor
  has a length rule, it throws `'Text too short'` unless
  `value.length > greaterThan`.

The Dafny files:

- `outcomes.dfy` (`Outcomes`): `Option`, the `Reason` for each error, `Result`
  (a returned value or a raised error), and the thrown strings.
- `js_values.dfy` (`JsValues`): primitive values, `typeof` (`typeof null` is
  `"object"`), reading `.length` (a TypeError on `null`/`undefined`, `undefined`
  on numbers and booleans), and `>` when one side may be `undefined`.
- `validation.dfy` (`Validation`): the descriptor, schema and candidate types.
  It also holds `Construct`, `ValidateItem`, the reducer `Step`, the fold
  `CheckProperties`, `Valid`, and `ValidIterative`, a loop version of the
  `reduce` call.
- `validation_properties.dfy` (`ValidationProperties`): a description of the
  outcome that does not use the fold. The first key that does not pass decides
  the outcome. The module also proves frame and order lemmas.
- `validation_examples.dfy` (`ValidationExamples`): the cases of
  `test/validator_test.js`, plus an example where key order decides whether an
  error is raised.

A candidate is a sequence of (key, value) pairs in the order `Object.keys`
returns them. Order matters because `&&` short-circuits: once the accumulator
is false, later keys are never checked, so they cannot raise. Raised errors
are modelled as `Err(reason)` and end the whole call. The model is pure, so
neither the schema nor the candidate can be changed by a call.

Three consequences of the code are worth stating on their own:

- A descriptor without `type` rejects every value, `undefined` included.
  `typeof` always returns a string (`"undefined"` for `undefined`), and that
  string is compared with the value `undefined` (`ValidateItem`'s contract,
  `ValidationExamples.ItemEdgeCases`).
- Whether an error is raised, and which one, depends on key order; only the
  `true` outcome does not (`ValidationProperties.TrueIsOrderIndependent`,
  `ValidationExamples.KeyOrderDecidesWhetherItRaises`).
- A `null` descriptor is accepted at construction, but `valid` raises a
  TypeError (`RuntimeTypeError`) when a candidate key reaches it, because
  `config.type` is read of `null`.

## Model

| member | source | states |
|---|---|---|
| `Validation.Construct` | validator.js:5-10 | `InputRequired` exactly when the schema is missing and `InvalidInput` exactly when it has no keys. Otherwise it succeeds and stores the schema unchanged, which is non-empty at construction. |
| `Validation.ValidateItem` | validator.js:26-34 | It raises only `TextTooShort` or a TypeError, and otherwise returns a boolean. A returned boolean is exactly `typeof value == descriptor.type`. A descriptor without `type` never yields true. Without a length rule, a non-null descriptor never raises. TypeError exactly for a null descriptor, or a nullish value under a length rule. `TextTooShort` exactly when a rule is present and the value is not a string strictly longer than `greaterThan`. |
| `Validation.Step` | validator.js:19-23 | A false accumulator or a key the schema lacks gives false without consulting the item check. The step is true exactly when the accumulator is true, the key is known and the item check returns true. A raised error is the item check's own, and an error the item check of a visited key raises is always raised by the step. |
| `JsValues.TypeOf` | validator.js:28 | Each kind reports its own tag and no other does: strings `"string"`, numbers `"number"`, booleans `"boolean"`, `null` `"object"`, `undefined` `"undefined"`. The tag never depends on the value's contents. |
| `JsValues.GreaterThan` | validator.js:29 | `>` is false whenever either side is `undefined`. With two numbers it is the strict integer comparison. |
| `Validation.CheckProperties` | validator.js:19-24 | Once the accumulator is false the fold returns false, whatever later keys hold. A true result needs a true accumulator. Only `TextTooShort` and TypeError can be raised. |
| `Validation.Valid` | validator.js:12-36 | `ObjectRequired` exactly for a missing candidate and `InvalidObject` exactly for an empty one, whatever the schema. Every other error comes from an item check. |
| `Validation.ValidIterative` | validator.js:17-35 | Running the `reduce` as a loop over every key, and stopping at a raised error, gives the same outcome as `Valid`. |
| `JsValues.ReadLength` | validator.js:29 | `.length` raises exactly on `null`/`undefined`, is `undefined` exactly on numbers and booleans, and is the element count on strings. |
| `Outcomes.MessagesDistinct` | validator.js:6-30 | Different thrown reasons have different messages. |
| `ValidationProperties.FoldAppend` | validator.js:24 | Folding `c1 + c2` is the same as folding `c1` and then continuing from its accumulator, unless `c1` raised. |
| `ValidationProperties.AllPassIff` | validator.js:19-24 | The fold from true returns true exactly when every candidate key is in the schema and its item check returns true. |
| `ValidationProperties.FirstStopDecides` | validator.js:19-24 | The first key that does not pass decides the outcome: its own false or error. Later keys are never evaluated. |
| `ValidationProperties.FirstStopExists` | validator.js:19-24 | If any key fails, there is a first failing key. |
| `ValidationProperties.ValidTrueIff` | validator.js:19-24 | For a non-empty candidate, `valid` is true exactly when every key is known and passes its item check. |
| `ValidationProperties.ValidFalseIff` | validator.js:20-21 | `valid` is false exactly when the first failing key is unknown to the schema or has a false item check. |
| `ValidationProperties.ValidRaisesIff` | validator.js:20-33 | `valid` raises `e` exactly when the first failing key's item check raises `e`. |
| `ValidationProperties.ValidOutcomeIsFirstStop` | validator.js:19-24 | Every outcome except true is the verdict of the first failing key, and such a key exists exactly when the outcome is not true. |
| `ValidationProperties.UnknownKeyIsFalse` | validator.js:20-21 | If every earlier key passes, a key missing from the schema makes the result false without raising, whatever follows it. |
| `ValidationProperties.SchemaFrame` | validator.js:19-24 | Two schemas that agree on the candidate's keys give the same fold outcome. |
| `ValidationProperties.ExtraSchemaKeysIgnored` | test/validator_test.js:63-66 | Adding schema entries for keys the candidate lacks never changes `valid`, so a partial candidate is judged only on its own keys. |
| `ValidationProperties.TrueIsOrderIndependent` | validator.js:24 | Reordering the candidate's keys does not change whether the fold returns true. |
| `ValidationExamples.ConstructionCases` | test/validator_test.js:8-31 | Missing and empty schemas are rejected. `{testProperty: null}` and `{name: {type: 'string'}}` are accepted. |
| `ValidationExamples.CandidateShapeCases` | test/validator_test.js:38-57 | Missing and empty candidates raise. `{name: null}` against a string type gives false without raising. |
| `ValidationExamples.TypeMatchCases` | test/validator_test.js:59-71 | Matching types give true, including a candidate that omits a schema key. |
| `ValidationExamples.LengthCases` | test/validator_test.js:74-91 | The length comparison is strict: 7 characters pass `greaterThan: 6` and raise for 7 and 8. |
| `ValidationExamples.MixedSchemaCases` | test/validator_test.js:92-118 | A string where a number is expected gives false. Matching multi-property candidates give true. |
| `ValidationExamples.ItemEdgeCases` | validator.js:28-33 | A number under a length rule raises. A wrong type that is also too short raises instead of returning false. A typeless descriptor rejects `undefined`. A null descriptor, or a null value under a length rule, raises a TypeError. |
| `ValidationExamples.KeyOrderDecidesWhetherItRaises` | validator.js:20-24 | The same two properties in the two possible orders give false in one order and `TextTooShort` in the other. |

## Left out

- Values other than strings, integers, booleans, `null` and `undefined`. Nested objects, arrays, functions and non-integer numbers are not modelled. The validator compares their `typeof`, and under a length rule it also reads their `.length`, which arrays and functions have; for example `{t: {type: 'object', length: {greaterThan: 1}}}` accepts `{t: ['a','b']}`. That case is not modelled.
- Truthiness beyond present vs. missing. A falsy schema or candidate such as `0` or `''` counts as missing. A truthy non-object, such as a string whose `Object.keys` lists indices, is not modelled. A falsy `length` member counts as absent.
- The order `Object.keys` produces is taken as given by the candidate sequence. JavaScript lists integer-like keys first, in ascending order; that rule is not modelled.
- A `null` `greaterThan`. JavaScript compares `null` as 0, so `{greaterThan: null}` must be encoded as `LengthRule(Some(0))`; `LengthRule(None)` stands for a missing `greaterThan` only.
- Non-object descriptors, such as `{name: 'string'}`. Their `.type` is `undefined`. A non-empty string descriptor has a truthy `.length` whose `greaterThan` is `undefined`, so the code raises `'Text too short'` (a TypeError for a null or undefined value); a number or boolean descriptor gives false. These descriptors are not modelled.
- Aliasing of the stored schema. The constructor keeps a reference to the caller's object, so a later change to it, even one that empties it, changes later `valid` results. `Validator` holds the schema as a value, and `Valid` takes the schema as it is at call time; that it is non-empty is promised only at construction.
- The prototype chain and an overridden `hasOwnProperty`. Schema membership is plain map membership.
- `String.prototype.length` counts UTF-16 code units. The model counts the elements of the string.
- The difference between thrown raw strings and the engine's `TypeError` objects. Both are `Err` reasons.
- The unreachable `return false` after the throw at validator.js:31.
- A candidate with duplicate keys cannot arise from a JavaScript object. The functions accept any sequence and do not rely on keys being distinct.
- The mocha/chai test harness. Its cases appear only as lemmas in `ValidationExamples`.

=== FILE: js_values.dfy ===
/** The slice of JavaScript's value semantics the validator depends on:
    `typeof`, reading `.length`, and `>` when an operand may be `undefined`. */
module JsValues {
  import opened Outcomes

  /** A property value of a candidate object. */
  datatype Value = Str(s: string) | Num(n: int) | Bool(b: bool) | Null | Undef
  {
    /** `null` and `undefined`: reading any property of them raises a TypeError. */
    predicate IsNullish()
    {
      Null? || Undef?
    }
  }

  /** JavaScript `typeof`; note that `typeof null` is "object". */
  function TypeOf(v: Value): (r: string)
    // Only `null` reports "object", and only `undefined` reports "undefined".
    ensures r == "object" <==> v.Null?
    ensures r == "undefined" <==> v.Undef?
    // The tag depends on the kind of value, never on its contents.
    ensures r == "string" <==> v.Str?
    ensures r == "number" <==> v.Num?
    ensures r == "boolean" <==> v.Bool?
    ensures r in {"string", "number", "boolean", "object", "undefined"}
  {
    match v
    case Str(_) => "string"
    case Num(_) => "number"
    case Bool(_) => "boolean"
    case Null => "object"
    case Undef => "undefined"
  }

  /** `v.length`: a string's length (its element count), `undefined` (None) for a number
      or a boolean, and a TypeError for `null` or `undefined`. */
  function ReadLength(v: Value): (r: Result<Option<nat>>)
    ensures r.Err? <==> v.IsNullish()
    ensures r.Err? ==> r.reason == RuntimeTypeError
    ensures r == Ok(None) <==> v.Num? || v.Bool?
    ensures v.Str? ==> r == Ok(Some(|v.s|))
  {
    match v
    case Str(s) => Ok(Some(|s|))
    case Num(_) => Ok(None)
    case Bool(_) => Ok(None)
    case Null => Err(RuntimeTypeError)
    case Undef => Err(RuntimeTypeError)
  }

  /** `a > b` on numbers where either side may be `undefined`: a comparison with
      `undefined` converts it to NaN and is false. */
  predicate GreaterThan(a: Option<int>, b: Option<int>)
    // An `undefined` operand on either side makes the comparison false.
    ensures GreaterThan(a, b) ==> a.Some? && b.Some?
    ensures a.Some? && b.Some? ==> (GreaterThan(a, b) <==> a.value > b.value)
  {
    match (a, b)
    case (Some(x), Some(y)) => x > y
    case _ => false
  }
}

=== FILE: outcomes.dfy ===
/** Optional values and the outcome of a validator call: a value or one of the
    errors the validator raises. */
module Outcomes {

  /** A value that may be missing: None stands for an absent member (`undefined`) and, where noted, for `null`. */
  datatype Option<+T> = None | Some(value: T)

  /** Why a call was aborted. The first five are the strings the validator throws;
      `RuntimeTypeError` is the TypeError the JavaScript engine raises when a
      property of `null` or `undefined` is read. */
  datatype Reason =
    | InputRequired
    | InvalidInput
    | ObjectRequired
    | InvalidObject
    | TextTooShort
    | RuntimeTypeError

  /** Either a returned value or a raised error. */
  datatype Result<+T> = Ok(value: T) | Err(reason: Reason)

  /** The string thrown for each reason; the engine's TypeError has no fixed text. */
  function Message(r: Reason): Option<string>
  {
    match r
    case InputRequired => Some("Input required")
    case InvalidInput => Some("Invalid input")
    case ObjectRequired => Some("Object required")
    case InvalidObject => Some("Invalid Object")
    case TextTooShort => Some("Text too short")
    case RuntimeTypeError => None
  }

  /** A caller can tell every thrown reason apart by its message alone. */
  lemma MessagesDistinct(a: Reason, b: Reason)
    requires Message(a).Some? && Message(a) == Message(b)
    ensures a == b
  {
  }
}

=== FILE: validation.dfy ===
/** The `Validator` class: construction from a schema, the per-property check
    `validateItem`, and `valid`, which folds that check over a candidate's keys. */
module Validation {
  import opened Outcomes
  import opened JsValues

  /** The `length` member of a descriptor; its `greaterThan` may itself be missing. */
  datatype LengthRule = LengthRule(greaterThan: Option<int>)

  /** A non-null constraint descriptor. `typeName` is the descriptor's `type`
      member and `length` its `length` member; None means the member is absent. */
  datatype Desc = Desc(typeName: Option<string>, length: Option<LengthRule>)

  /** A schema entry; None is a descriptor that is `null` (or `undefined`). */
  type Descriptor = Option<Desc>

  /** Property name to descriptor; membership is `hasOwnProperty`. */
  type Schema = map<string, Descriptor>

  /** A candidate object as the (key, value) pairs `Object.keys` enumerates, in that order. */
  type Candidate = seq<(string, Value)>

  /** A constructed validator; it holds the schema it was given. */
  datatype Validator = Validator(schema: Schema)

  /** `new Validator(input)`: a missing schema and a schema without keys are
      rejected; anything else is stored unchanged. */
  function Construct(input: Option<Schema>): (r: Result<Validator>)
    ensures r == Err(InputRequired) <==> input.None?
    ensures r == Err(InvalidInput) <==> input == Some(map[])
    ensures r.Ok? <==> input.Some? && input.value != map[]
    ensures r.Ok? ==> r.value.schema == input.value && |r.value.schema| > 0
  {
    if input.None? then Err(InputRequired)
    else if |input.value| == 0 then Err(InvalidInput)
    else Ok(Validator(input.value))
  }

  /** `validateItem(inputItem, config)`: the type comparison decides the boolean;
      a length rule can only raise, never turn the boolean to true. */
  function ValidateItem(item: Value, config: Descriptor): (r: Result<bool>)
    // A returned boolean is exactly "typeof item equals the descriptor's type".
    ensures r.Ok? ==> config.Some? && r.value == (config.value.typeName == Some(TypeOf(item)))
    // Without a `type` member nothing passes, not even `undefined`.
    ensures config.Some? && config.value.typeName.None? ==> r != Ok(true)
    // The only errors are the engine's TypeError and the failed length rule.
    ensures r.Err? ==> r.reason == TextTooShort || r.reason == RuntimeTypeError
    // Without a length rule a non-null descriptor never raises.
    ensures config.Some? && config.value.length.None? ==> r.Ok?
    // Reading `.type` of a null descriptor, or `.length` of a nullish value, raises a TypeError.
    ensures r == Err(RuntimeTypeError) <==>
              config.None? || (config.value.length.Some? && item.IsNullish())
    // The rule raises unless the value is a string strictly longer than the threshold.
    ensures r == Err(TextTooShort) <==>
              config.Some? && config.value.length.Some? && !item.IsNullish() &&
              !(item.Str? && config.value.length.value.greaterThan.Some? &&
                |item.s| > config.value.length.value.greaterThan.value)
  {
    match config
    case None => Err(RuntimeTypeError)
    case Some(d) =>
      var returnValue := d.typeName == Some(TypeOf(item));
      match d.length
      case None => Ok(returnValue)
      case Some(rule) =>
        match ReadLength(item)
        case Err(e) => Err(e)
        case Ok(len) =>
          if GreaterThan(len, rule.greaterThan) then Ok(returnValue) else Err(TextTooShort)
  }

  /** One call of the reducer `checkProperties(accumulator, key)`:
      `accumulator && config.hasOwnProperty(key) && validateItem(inputObj[key], config[key])`,
      where `&&` stops at the first false operand. */
  function Step(schema: Schema, acc: bool, prop: (string, Value)): (r: Result<bool>)
    // A false accumulator, or a key the schema lacks, gives false without a lookup.
    ensures !acc || prop.0 !in schema ==> r == Ok(false)
    // The step is true only when every operand of `&&` is.
    ensures r == Ok(true) <==> acc && prop.0 in schema && ValidateItem(prop.1, schema[prop.0]) == Ok(true)
    // A raised error is the item check's, and it needs a true accumulator and a known key.
    ensures r.Err? ==> acc && prop.0 in schema && r == ValidateItem(prop.1, schema[prop.0])
    // An error from the item check of a visited key always leaves the step.
    ensures acc && prop.0 in schema && ValidateItem(prop.1, schema[prop.0]).Err? ==>
              r == ValidateItem(prop.1, schema[prop.0])
  {
    if !acc then Ok(false)
    else if prop.0 !in schema then Ok(false)
    else ValidateItem(prop.1, schema[prop.0])
  }

  /** `Object.keys(inputObj).reduce(checkProperties, acc)`: a left fold that is
      abandoned as soon as a step raises. */
  function CheckProperties(schema: Schema, acc: bool, props: Candidate): (r: Result<bool>)
    // Once the accumulator is false no later key can raise or restore it.
    ensures !acc ==> r == Ok(false)
    ensures r == Ok(true) ==> acc
    // Only the per-item check raises.
    ensures r.Err? ==> r.reason == TextTooShort || r.reason == RuntimeTypeError
    decreases |props|
  {
    if |props| == 0 then Ok(acc)
    else
      match Step(schema, acc, props[0])
      case Err(e) => Err(e)
      case Ok(next) => CheckProperties(schema, next, props[1..])
  }

  /** `validator.valid(inputObj)`: a missing candidate and a candidate without keys
      are rejected before the schema is consulted; otherwise the fold starts at true. */
  function Valid(v: Validator, inputObj: Option<Candidate>): (r: Result<bool>)
    ensures r == Err(ObjectRequired) <==> inputObj.None?
    ensures r == Err(InvalidObject) <==> inputObj == Some([])
    ensures r.Err? ==> r.reason in {ObjectRequired, InvalidObject, TextTooShort, RuntimeTypeError}
  {
    if inputObj.None? then Err(ObjectRequired)
    else if |inputObj.value| == 0 then Err(InvalidObject)
    else CheckProperties(v.schema, true, inputObj.value)
  }

  /** `valid` as `Array.prototype.reduce` runs it: every key is visited in order,
      the accumulator is updated by `Step`, and a raised error ends the call. */
  method ValidIterative(v: Validator, inputObj: Option<Candidate>) returns (r: Result<bool>)
    ensures r == Valid(v, inputObj)
  {
    if inputObj.None? {
      return Err(ObjectRequired);
    }
    var props := inputObj.value;
    if |props| == 0 {
      return Err(InvalidObject);
    }
    var acc := true;
    var i := 0;
    while i < |props|
      invariant 0 <= i <= |props|
      invariant CheckProperties(v.schema, true, props) == CheckProperties(v.schema, acc, props[i..])
    {
      assert props[i..][0] == props[i] && props[i..][1..] == props[i + 1..];
      var step := Step(v.schema, acc, props[i]);
      if step.Err? {
        return Err(step.reason);
      }
      acc := step.value;
      i := i + 1;
    }
    return Ok(acc);
  }
}

=== FILE: validation_examples.dfy ===
/** The cases of the repository's test suite, and the order dependence the fold
    hides, as concrete instances of the model. */
module ValidationExamples {
  import opened Outcomes
  import opened JsValues
  import opened Validation

  function StringType(): Descriptor { Some(Desc(Some("string"), None)) }
  function NumberType(): Descriptor { Some(Desc(Some("number"), None)) }
  function StringLonger(n: int): Descriptor { Some(Desc(Some("string"), Some(LengthRule(Some(n))))) }

  /** Construction: missing and empty schemas are rejected, `{p: null}` is accepted. */
  lemma ConstructionCases()
    ensures Construct(None) == Err(InputRequired)
    ensures Construct(Some(map[])) == Err(InvalidInput)
    ensures Construct(Some(map["testProperty" := None])).Ok?
    ensures Construct(Some(map["name" := StringType()])).Ok?
  {
  }

  /** Missing and empty candidates raise before any schema lookup; a null value
      against a string type is false rather than an error. */
  lemma CandidateShapeCases()
    ensures Valid(Validator(map["testProperty" := None]), None) == Err(ObjectRequired)
    ensures Valid(Validator(map["testProperty" := None]), Some([])) == Err(InvalidObject)
    ensures Valid(Validator(map["name" := StringType()]), Some([("name", Null)])) == Ok(false)
  {
  }

  /** Matching types pass; schema keys absent from the candidate are not required. */
  lemma TypeMatchCases()
    ensures Valid(Validator(map["name" := StringType()]), Some([("name", Str("My Name"))])) == Ok(true)
    ensures Valid(Validator(map["age" := NumberType(), "name" := StringType()]),
                  Some([("name", Str("string"))])) == Ok(true)
    ensures Valid(Validator(map["age" := NumberType(), "name" := StringType()]),
                  Some([("age", Num(10)), ("name", Str("My Name"))])) == Ok(true)
  {
  }

  /** The length rule is a strict comparison and raises when it fails. */
  lemma LengthCases()
    ensures Valid(Validator(map["name" := StringLonger(6)]), Some([("name", Str("My Name"))])) == Ok(true)
    ensures Valid(Validator(map["name" := StringLonger(7)]), Some([("name", Str("My Name"))])) == Err(TextTooShort)
    ensures Valid(Validator(map["name" := StringLonger(8)]), Some([("name", Str("My Name"))])) == Err(TextTooShort)
    ensures Valid(Validator(map["name" := StringLonger(8)]), Some([("name", Str("My  Names"))])) == Ok(true)
  {
  }

  function Dogs(breedMin: int): Schema
  {
    map["name" := StringLonger(8), "breed" := StringLonger(breedMin), "age" := NumberType()]
  }

  /** A wrong type is false; several matching properties are true. */
  lemma MixedSchemaCases()
    ensures Valid(Validator(Dogs(9)), Some([("age", Str("My  Names"))])) == Ok(false)
    ensures Valid(Validator(Dogs(9)), Some([("age", Num(10))])) == Ok(true)
    ensures Valid(Validator(Dogs(4)),
                  Some([("age", Num(10)), ("name", Str("123456789")), ("breed", Str("12345"))])) == Ok(true)
  {
  }

  /** Item-level edge cases: a number under a length rule raises, a wrong type
      that is also too short raises rather than returning false, a descriptor
      without `type` rejects even `undefined`, and a null descriptor raises. */
  lemma ItemEdgeCases()
    ensures ValidateItem(Num(123456789), StringLonger(2)) == Err(TextTooShort)
    ensures ValidateItem(Str("ab"), Some(Desc(Some("number"), Some(LengthRule(Some(5)))))) == Err(TextTooShort)
    ensures ValidateItem(Undef, Some(Desc(None, None))) == Ok(false)
    ensures ValidateItem(Str("x"), None) == Err(RuntimeTypeError)
    ensures ValidateItem(Null, StringLonger(0)) == Err(RuntimeTypeError)
  {
  }

  /** The same two properties in the two orders `Object.keys` could list them:
      a false first key hides the second key's failing length rule. */
  lemma KeyOrderDecidesWhetherItRaises()
    ensures Valid(Validator(map["a" := StringType(), "b" := StringLonger(5)]),
                  Some([("a", Num(1)), ("b", Str("x"))])) == Ok(false)
    ensures Valid(Validator(map["a" := StringType(), "b" := StringLonger(5)]),
                  Some([("b", Str("x")), ("a", Num(1))])) == Err(TextTooShort)
  {
  }
}

=== FILE: validation_properties.dfy ===
/** What `valid` computes, stated independently of the fold: the first key that
    does not pass decides the outcome, and only candidate keys are ever looked at. */
module ValidationProperties {
  import opened Outcomes
  import opened JsValues
  import opened Validation

  /** The outcome one key would contribute on its own: an unknown key is false,
      a known key gives whatever `validateItem` gives. */
  function Verdict(schema: Schema, prop: (string, Value)): Result<bool>
  {
    if prop.0 in schema then ValidateItem(prop.1, schema[prop.0]) else Ok(false)
  }

  /** A key passes when it is in the schema and its item check returns true. */
  predicate Passes(schema: Schema, prop: (string, Value))
  {
    Verdict(schema, prop) == Ok(true)
  }

  /** Index `i` is the first key of `c` that does not pass. */
  predicate FirstStop(schema: Schema, c: Candidate, i: int)
  {
    0 <= i < |c| && !Passes(schema, c[i]) &&
    forall j :: 0 <= j < i ==> Passes(schema, c[j])
  }

  /** Folding two pieces of a candidate is folding the first and continuing with
      its accumulator, unless the first piece raised. */
  lemma {:induction false} FoldAppend(schema: Schema, acc: bool, c1: Candidate, c2: Candidate)
    ensures CheckProperties(schema, acc, c1 + c2) ==
              match CheckProperties(schema, acc, c1)
              case Err(e) => Err(e)
              case Ok(a) => CheckProperties(schema, a, c2)
    decreases |c1|
  {
    if |c1| == 0 {
      assert c1 + c2 == c2;
    } else {
      assert (c1 + c2)[0] == c1[0];
      assert (c1 + c2)[1..] == c1[1..] + c2;
      match Step(schema, acc, c1[0])
      case Err(e) =>
      case Ok(next) =>
        FoldAppend(schema, next, c1[1..], c2);
    }
  }

  /** The fold from true returns true exactly when every candidate key passes. */
  lemma {:induction false} AllPassIff(schema: Schema, c: Candidate)
    ensures CheckProperties(schema, true, c) == Ok(true) <==>
              forall j :: 0 <= j < |c| ==> Passes(schema, c[j])
    decreases |c|
  {
    if |c| > 0 {
      AllPassIff(schema, c[1..]);
      if Passes(schema, c[0]) {
        forall j | 0 <= j < |c| ensures Passes(schema, c[j]) <==> (j == 0 || Passes(schema, c[1..][j - 1])) {
        }
      }
    }
  }

  /** When some key fails, the first such key decides the outcome: false for an
      unknown key or a type mismatch, the item's error when it raises. Nothing
      after it is evaluated. */
  lemma {:induction false} FirstStopDecides(schema: Schema, c: Candidate, i: int)
    requires FirstStop(schema, c, i)
    ensures CheckProperties(schema, true, c) == Verdict(schema, c[i])
    decreases i
  {
    if i == 0 {
      match Verdict(schema, c[0])
      case Err(e) =>
      case Ok(b) =>
        assert !b;
    } else {
      assert Passes(schema, c[0]);
      assert FirstStop(schema, c[1..], i - 1) by {
        forall j | 0 <= j < i - 1 ensures Passes(schema, c[1..][j]) {
          assert c[1..][j] == c[j + 1];
        }
      }
      FirstStopDecides(schema, c[1..], i - 1);
    }
  }

  /** A key that does not pass has a first one. */
  lemma {:induction false} FirstStopExists(schema: Schema, c: Candidate, k: int)
    requires 0 <= k < |c| && !Passes(schema, c[k])
    ensures exists i :: FirstStop(schema, c, i)
    decreases |c|
  {
    if Passes(schema, c[0]) {
      assert k > 0 && c[1..][k - 1] == c[k];
      FirstStopExists(schema, c[1..], k - 1);
      var i :| FirstStop(schema, c[1..], i);
      forall j | 0 <= j < i + 1 ensures Passes(schema, c[j]) {
        if j > 0 {
          assert c[j] == c[1..][j - 1];
        }
      }
      assert FirstStop(schema, c, i + 1);
    } else {
      assert FirstStop(schema, c, 0);
    }
  }

  /** For a non-empty candidate, `valid` returns true exactly when every key is
      in the schema and every visited item check returns true. */
  lemma ValidTrueIff(v: Validator, c: Candidate)
    requires |c| > 0
    ensures Valid(v, Some(c)) == Ok(true) <==> forall j :: 0 <= j < |c| ==> Passes(v.schema, c[j])
  {
    AllPassIff(v.schema, c);
  }

  /** `valid` returns false exactly when the first failing key is unknown to the
      schema or has an item check that returns false. */
  lemma ValidFalseIff(v: Validator, c: Candidate)
    requires |c| > 0
    ensures Valid(v, Some(c)) == Ok(false) <==>
              exists i :: FirstStop(v.schema, c, i) && Verdict(v.schema, c[i]) == Ok(false)
  {
    ValidOutcomeIsFirstStop(v, c);
  }

  /** `valid` raises `e` exactly when the first failing key's item check raises `e`. */
  lemma ValidRaisesIff(v: Validator, c: Candidate, e: Reason)
    requires |c| > 0
    ensures Valid(v, Some(c)) == Err(e) <==>
              exists i :: FirstStop(v.schema, c, i) && Verdict(v.schema, c[i]) == Err(e)
  {
    ValidOutcomeIsFirstStop(v, c);
  }

  /** Every outcome other than true comes from the first failing key. */
  lemma ValidOutcomeIsFirstStop(v: Validator, c: Candidate)
    requires |c| > 0
    ensures Valid(v, Some(c)) != Ok(true) <==> exists i :: FirstStop(v.schema, c, i)
    ensures forall i :: FirstStop(v.schema, c, i) ==> Valid(v, Some(c)) == Verdict(v.schema, c[i])
  {
    AllPassIff(v.schema, c);
    forall i | FirstStop(v.schema, c, i) ensures Valid(v, Some(c)) == Verdict(v.schema, c[i]) {
      FirstStopDecides(v.schema, c, i);
    }
    if Valid(v, Some(c)) != Ok(true) {
      var k :| 0 <= k < |c| && !Passes(v.schema, c[k]);
      FirstStopExists(v.schema, c, k);
    }
  }

  /** A candidate key missing from the schema makes the result false without
      raising, whatever keys come after it. */
  lemma UnknownKeyIsFalse(v: Validator, c: Candidate, i: int)
    requires 0 <= i < |c| && c[i].0 !in v.schema
    requires forall j :: 0 <= j < i ==> Passes(v.schema, c[j])
    ensures Valid(v, Some(c)) == Ok(false)
  {
    FirstStopDecides(v.schema, c, i);
  }

  /** Only the descriptors of keys the candidate has matter: two schemas that
      agree on the candidate's keys give the same outcome, so schema keys the
      candidate omits are never checked. */
  lemma {:induction false} SchemaFrame(s1: Schema, s2: Schema, acc: bool, c: Candidate)
    requires forall j :: 0 <= j < |c| ==> (c[j].0 in s1 <==> c[j].0 in s2)
    requires forall j :: 0 <= j < |c| && c[j].0 in s1 ==> s1[c[j].0] == s2[c[j].0]
    ensures CheckProperties(s1, acc, c) == CheckProperties(s2, acc, c)
    decreases |c|
  {
    if |c| > 0 {
      assert Step(s1, acc, c[0]) == Step(s2, acc, c[0]);
      match Step(s1, acc, c[0])
      case Err(_) =>
      case Ok(next) =>
        forall j | 0 <= j < |c| - 1 ensures c[1..][j] == c[j + 1] {
        }
        SchemaFrame(s1, s2, next, c[1..]);
    }
  }

  /** Adding schema entries for keys the candidate does not have leaves `valid` unchanged. */
  lemma ExtraSchemaKeysIgnored(v: Validator, extra: Schema, c: Candidate)
    requires forall j :: 0 <= j < |c| ==> c[j].0 !in extra
    ensures Valid(Validator(v.schema + extra), Some(c)) == Valid(v, Some(c))
  {
    SchemaFrame(v.schema + extra, v.schema, true, c);
  }

  /** Whether `valid` returns true does not depend on the order of the keys.
      (Which error is raised, or whether one is, does; see the examples.) */
  lemma TrueIsOrderIndependent(schema: Schema, c: Candidate, d: Candidate)
    requires multiset(c) == multiset(d)
    ensures CheckProperties(schema, true, c) == Ok(true) <==> CheckProperties(schema, true, d) == Ok(true)
  {
    AllPassIff(schema, c);
    AllPassIff(schema, d);
    if forall j :: 0 <= j < |c| ==> Passes(schema, c[j]) {
      forall j | 0 <= j < |d| ensures Passes(schema, d[j]) {
        assert d[j] in multiset(d);
        var k :| 0 <= k < |c| && c[k] == d[j];
      }
    }
    if forall j :: 0 <= j < |d| ==> Passes(schema, d[j]) {
      forall j | 0 <= j < |c| ensures Passes(schema, c[j]) {
        assert c[j] in multiset(c);
        var k :| 0 <= k < |d| && d[k] == c[j];
      }
    }
  }
}
